=== FILE: README.md ===
# Chat server and client protocol, in Dafny

This project models the two halves of a small line-oriented chat protocol.

The **server** keeps a registry: the set `names` of claimed screen names and
the map `writers` from each accepted name to its connection. Every connection
runs a Handler. The Handler asks for a name (`SUBMITNAME`) until it gets one
that is not taken. It then sends the new client the names already present
(`USERS:`), acknowledges it (`NAMEACCEPTED`) and announces it to everyone
(`USERCONNECTED`). After that it relays the client's lines. A line with `>>`
goes to the one recipient named before the first `>>`; any other line goes to
everyone. When the connection ends, the Handler removes its `name` from both
collections.

The **client** sorts each server line by prefix. It answers `SUBMITNAME` with
the chosen name and enables its text field on `NAMEACCEPTED`. It fills its user
list from `USERS` and `USERCONNECTED` lines and shows `MESSAGE` lines. When the
user presses Enter it sends either the raw text (Broadcast ticked) or one
`user>>text` line per selected user.

Modules:

- `Wrappers`: the `Option` type; `None` stands for Java's `null`.
- `Text`: the `java.lang.String` operations the protocol relies on:
  `startsWith`, `trim`, removing one character, `split` on one character with
  trailing empty pieces dropped, and the comma-space join of a collection's
  `toString`.
- `Ordering`: lexicographic order and `Enumerate`, which lists a set in that
  order. It stands in for the unspecified iteration order of `HashSet` and
  `HashMap`.
- `ChatServer`: the registry, the Handler phases (`Naming`, `Active`,
  `Closed`), the router, broadcast and point-to-point delivery, the teardown,
  and `Step`. `Step` applies one input event of one session to a `World`
  value and returns the lines written, each addressed to a session. Thread
  interleaving is replaced by a sequence of atomic steps.
- `ChatClient`: the dispatch loop of `run` as `Decode`/`Receive`/`Run`, and
  `actionPerformed` as `Compose`.
- `RoundTrip`: what each side makes of the other's lines.
- `Scenarios`: runs of the server from an empty room, including the run in
  which a refused candidate's failed read evicts another session's name.

Properties stated for any order hold for Java's real iteration order too.
Those that fix an order (the exact `USERS` payload, the order of announcements)
use the lexicographic stand-in.

## Model

| member | source | states |
|---|---|---|
| `ChatServer.NamingStep` | src/chatserver/ChatServer.java:122-155 | A taken candidate leaves the registry unchanged, keeps the session naming with `name` set to the candidate, and re-sends SUBMITNAME. A free candidate adds exactly that name to `names` and maps it to this session. It sends this session the USERS line of the names present before the add, then NAMEACCEPTED, then sends USERCONNECTED to every writer, the newcomer included, and to nobody else. End of stream closes the session and changes nothing. A failed read closes it and removes the last candidate read. |
| `ChatServer.ActiveStep` | src/chatserver/ChatServer.java:159-197 | A line is relayed and leaves the registry and phase unchanged. End of stream or a failed read closes the session and removes its name from both collections. |
| `ChatServer.Step` | src/chatserver/ChatServer.java:110-204 | Only the addressed session changes phase, and a closed session ignores events. A line never removes a name. End of stream or a failure never adds a name, sends nothing and closes the session. |
| `ChatServer.Connect` | src/chatserver/ChatServer.java:115-123 | A new session starts naming with `name` null, gets the next session number, and is sent SUBMITNAME. The registry is untouched. |
| `ChatServer.UsersPayloadStripsBrackets` | src/chatserver/ChatServer.java:133 | For any names the payload is the comma-space join with every `]` deleted: the closing bracket and also any `]` inside a name. |
| `ChatServer.UsersPayloadIsJoin` | src/chatserver/ChatServer.java:133 | When no name contains `]`, stripping the brackets of the set's `toString` leaves exactly the names joined by ", ". |
| `ChatServer.UsersPayload` | src/chatserver/ChatServer.java:133 | The names listing sent to a newcomer never holds `]`, whatever the names. |
| `ChatServer.UsersLine` | src/chatserver/ChatServer.java:133-134 | A `USERS:` header of six characters, the very ones a client's `substring(6)` skips, followed by the payload; no `]` anywhere. |
| `ChatServer.UserConnectedLine` | src/chatserver/ChatServer.java:153-155 | A fourteen-character `USERCONNECTED ` header, the ones a client's `substring(14)` skips, followed by exactly the name. |
| `ChatServer.MessageLine` | src/chatserver/ChatServer.java:88-102 | An eight-character `MESSAGE ` header, the ones a client's `substring(8)` skips, then the sender's name, `: `, and the body, each at its position. |
| `ChatServer.FindDelimFrom` | src/chatserver/ChatServer.java:168-169 | Finds the first `>>` at or after a position, or reports that there is none. |
| `ChatServer.RouteLine` | src/chatserver/ChatServer.java:168-173 | A line is broadcast exactly when it holds no `>>`, and then whole. Otherwise it is the recipient, `>>`, then the body. The recipient holds no `>>` and does not end in `>`, so the split is at the first `>>` and later ones stay in the body. |
| `ChatServer.SplitUnique` | src/chatserver/ChatServer.java:169 | There is only one way to split a line into such a recipient, `>>`, and a body. |
| `ChatServer.Fanout` | src/chatserver/ChatServer.java:153-155 | One delivery per registered writer, each carrying the line and going to a registered session. Every writer receives it. |
| `ChatServer.Broadcast` | src/chatserver/ChatServer.java:88-92 | `MESSAGE from: msg` reaches every registered writer, the sender included, and only those. |
| `ChatServer.P2P` | src/chatserver/ChatServer.java:97-102 | Exactly one `MESSAGE from: msg` to the recipient's writer when the recipient is registered, and nothing otherwise. |
| `ChatServer.Relay` | src/chatserver/ChatServer.java:168-173 | A line without `>>` reaches every writer as a message, and only writers. A line with `>>` produces at most one delivery: to the recipient before the first `>>`, with the rest as body, or nothing when that recipient is not registered. |
| `ChatServer.Unregister` | src/chatserver/ChatServer.java:191-197 | Removing null changes nothing. Removing a name takes it out of both collections and leaves every other entry as it was. |
| `ChatServer.Teardown` | src/chatserver/ChatServer.java:178-197 | Running the cleanup twice (the SocketException handler, then `finally`) leaves the same registry as running it once. |
| `ChatServer.InitValid` | src/chatserver/ChatServer.java:42-47 | The empty registry satisfies the invariant. |
| `ChatServer.ConnectPreservesValid` | src/chatserver/ChatServer.java:115-123 | A new connection keeps the invariant. |
| `ChatServer.NamingPreservesValid` | src/chatserver/ChatServer.java:122-155 | Every naming-phase event keeps the invariant. `names` and the keys of `writers` stay equal, and each registered name belongs to a live session that accepted exactly that name. |
| `ChatServer.ActivePreservesValid` | src/chatserver/ChatServer.java:159-197 | Every relay-phase event keeps the invariant. |
| `ChatServer.StepPreservesValid` | src/chatserver/ChatServer.java:110-204 | Every step of every session keeps the invariant. |
| `ChatServer.WritersInjective` | src/chatserver/ChatServer.java:147 | Under the invariant no two registered names share a connection. |
| `ChatServer.RejectedCandidateEvictsOwner` | src/chatserver/ChatServer.java:178-197 | A session whose last read was a taken name and whose next read fails removes that name from both collections. The name's owner is another session, which stays active under the name while no longer registered. |
| `ChatClient.UserEntries` | src/chatserver/ChatClient.java:141-144 | The payload split on commas yields at least one entry unless the payload holds a comma, and every entry is trimmed. |
| `ChatClient.Decode` | src/chatserver/ChatClient.java:133-151 | Prefixes are checked in the order SUBMITNAME, NAMEACCEPTED, USERS, USERCONNECTED, MESSAGE. A line decodes as a name request exactly when it starts with SUBMITNAME, and as the acceptance exactly when it starts with NAMEACCEPTED. A USERS line of six or more characters lists the entries of its text after the sixth, and a MESSAGE line of eight or more carries its text after the eighth. A line is unrecognised exactly when it has none of them. It is truncated, so that `substring` throws, exactly when it is the bare word USERS, USERCONNECTED or MESSAGE. USERCONNECTED never takes the USERS branch. Names and messages are the text after the 14th or 8th character. Java counts UTF-16 units here; see the `ChatClient.Decode` line under "## Left out". |
| `ChatClient.DecodeMessage` | src/chatserver/ChatClient.java:149-150 | `"MESSAGE " + rest` shows exactly `rest`. |
| `ChatClient.DecodeUserConnected` | src/chatserver/ChatClient.java:146-148 | `"USERCONNECTED " + rest` adds exactly `rest`. |
| `ChatClient.DecodeUsers` | src/chatserver/ChatClient.java:139-144 | `"USERS:" + rest` lists the trimmed comma-separated pieces of `rest`. |
| `ChatClient.Receive` | src/chatserver/ChatClient.java:128-151 | A truncated line ends the loop. SUBMITNAME is answered with the dialog's value, or "null" when the dialog is cancelled, and nothing else changes. NAMEACCEPTED makes the field editable. USERS appends exactly its entries and USERCONNECTED exactly its name. MESSAGE appends its text and a newline to the message area. An unrecognised line changes nothing. Across all lines the field becomes editable exactly on NAMEACCEPTED and never stops being so, the user list only grows, and only SUBMITNAME is answered. |
| `ChatClient.NameReply` | src/chatserver/ChatClient.java:133-136 | The reply to SUBMITNAME is the name typed into the dialog, or the four characters `null` when the dialog is cancelled, since `println` writes a null string that way. |
| `ChatClient.Run` | src/chatserver/ChatClient.java:128-152 | The loop ends in an exception exactly when some line is the bare USERS, USERCONNECTED or MESSAGE. Otherwise the user list has only grown and an editable field has stayed editable. |
| `ChatClient.GreetingRun` | src/chatserver/ChatClient.java:128-151 | The USERS, NAMEACCEPTED and USERCONNECTED lines, in that order, leave the client editable and listing the USERS entries followed by the announced name. |
| `ChatClient.EditableIffAccepted` | src/chatserver/ChatClient.java:128-151 | After any run that does not end in an exception, the text field is editable exactly when it was before or some line was NAMEACCEPTED. So from the initial state, where the field starts not editable, the text field becomes editable only once NAMEACCEPTED has arrived. |
| `ChatClient.Compose` | src/chatserver/ChatClient.java:84-91 | With Broadcast ticked, the raw text alone. Otherwise one `user>>text` line per selected user, in list order. |
| `RoundTrip.SubmitNameDecodes` | src/chatserver/ChatClient.java:133-136 | The server's SUBMITNAME is read as a name request. |
| `RoundTrip.NameAcceptedDecodes` | src/chatserver/ChatClient.java:137-138 | The server's NAMEACCEPTED is read as the acceptance. |
| `RoundTrip.MessageDecodes` | src/chatserver/ChatClient.java:149-150 | A server MESSAGE line shows exactly `from: body`. |
| `RoundTrip.UserConnectedDecodes` | src/chatserver/ChatClient.java:146-148 | A server USERCONNECTED line adds exactly the announced name. |
| `RoundTrip.EntriesOfJoin` | src/chatserver/ChatClient.java:141-144 | Splitting a comma-space join on commas and trimming gives back the joined names when none holds a comma or has trimmable ends. |
| `RoundTrip.UsersDecodes` | src/chatserver/ChatClient.java:139-144 | For a non-empty registry whose names hold no `,` or `]` and have no trimmable ends, the client lists exactly the registered names. |
| `RoundTrip.EmptyUsersDecodes` | src/chatserver/ChatServer.java:133-134 | An empty registry sends `USERS:`, which the client reads as one empty entry. |
| `RoundTrip.NewcomerSeesRoster` | src/chatserver/ChatServer.java:133-155 | A newcomer receiving its acceptance greeting can send and lists the earlier names followed by its own. |
| `RoundTrip.FirstComerSeesEmptyEntry` | src/chatserver/ChatServer.java:133-155 | The first client to join lists an empty entry before its own name. |
| `RoundTrip.DirectedRoundTrip` | src/chatserver/ChatServer.java:168-170 | The server splits `user>>text` back into `user` and `text` if and only if `user` holds no `>>` and does not end in `>`. |
| `RoundTrip.DirectedSendRoutes` | src/chatserver/ChatClient.java:88-90 | Each line of a directed send is routed to its selected user with the typed text, under that same condition. |
| `RoundTrip.BroadcastSendRoutes` | src/chatserver/ChatClient.java:84-85 | A broadcast send is the raw text. The server broadcasts it exactly when it holds no `>>` and routes it as directed otherwise. |
| `Text.Trim` | src/chatserver/ChatClient.java:143 | The result has no trimmable character at either end, is no longer than the input, and is the input itself when that is already trimmed. |
| `Text.TrimPadded` | src/chatserver/ChatClient.java:143 | Trimming a trimmed text padded with trimmable characters gives the text back. |
| `Text.Remove` | src/chatserver/ChatServer.java:133 | Removing a character leaves no occurrence of it and keeps every other character. |
| `Text.SplitJoin` | src/chatserver/ChatClient.java:141 | Splitting on a character undoes joining with it. |
| `Text.JoinSplit` | src/chatserver/ChatClient.java:141 | Joining with a character undoes splitting on it. |
| `Text.JavaSplit` | src/chatserver/ChatClient.java:141 | No piece holds the separator. Without a separator the text comes back whole, even when empty. |
| `Text.JavaSplitPieces` | src/chatserver/ChatClient.java:141 | With a separator present, the result is the run of pieces between separators up to the last non-empty one. Every piece dropped after it is empty. |
| `Text.JavaSplitCommaSpaceJoin` | src/chatserver/ChatClient.java:141 | Splitting a comma-space join of two or more comma-free names keeps every piece, each later one with its leading space. |
| `Ordering.Enumerate` | src/chatserver/ChatServer.java:133 | Lists each element of the set exactly once, strictly increasing. |
| `Ordering.SortedListingUnique` | src/chatserver/ChatServer.java:89 | Any strictly sorted listing of a set is the one `Enumerate` gives. |
| `Scenarios.FirstClientConnects` | src/chatserver/ChatServer.java:115-123 | The first connection starts naming and is sent SUBMITNAME. |
| `Scenarios.FirstClientJoins` | src/chatserver/ChatServer.java:122-155 | The first client's name is accepted with the empty USERS line, NAMEACCEPTED, and its own USERCONNECTED. |
| `Scenarios.SecondClientConnects` | src/chatserver/ChatServer.java:115-123 | A second connection is asked for a name like the first. |
| `Scenarios.TakenNameAskedAgain` | src/chatserver/ChatServer.java:122-140 | Submitting a taken name gets SUBMITNAME again, keeps the candidate in `name`, and leaves the registry alone. |
| `Scenarios.SecondNameAccepted` | src/chatserver/ChatServer.java:130-155 | A free second name is accepted with the first name listed, and both clients hear of it. |
| `Scenarios.BroadcastReachesEveryone` | src/chatserver/ChatServer.java:171-173 | A line without `>>` reaches both clients, sender included. |
| `Scenarios.DirectedReachesRecipientOnly` | src/chatserver/ChatServer.java:168-170 | `b>>text` reaches only `b`, whatever `>>` the text holds. |
| `Scenarios.UnknownRecipientDropped` | src/chatserver/ChatServer.java:97-102 | A directed line to an unregistered name goes nowhere. |
| `Scenarios.LeaverNameFreed` | src/chatserver/ChatServer.java:159-197 | End of stream closes the session and frees its name. |
| `Scenarios.FreedNameReusable` | src/chatserver/ChatServer.java:130-137 | A newcomer may then claim the freed name. |
| `Scenarios.RejectedCandidateEviction` | src/chatserver/ChatServer.java:122-197 | After a refused candidate and a failed read, the registry is empty while the owner is still active. A third client is then accepted under the same name, leaving two active sessions that carry it. |

## Left out

- Sockets, `ServerSocket.accept`, thread creation and both `main` methods are I/O plumbing. A connection is `Connect`, and each read is an `Event` given to `Step`.
- Concurrency: `synchronized (names)` guards only the check and the add. `writers.put` and the loops over `writers.values()` are unsynchronised. The model runs each Handler event as one atomic step, so the window between `names.add` and `writers.put`, and concurrent iteration and update of `writers`, are not modelled.
- Iteration order of `HashSet` and `HashMap` is unspecified in Java. The model lists names lexicographically wherever an order is needed.
- A failure while creating the streams (before the first SUBMITNAME) is not modelled. `Connect` always succeeds. A read failure straight after it removes nothing, as in the source.
- `socket.close()`, the server's console messages and the logging of `IOException` have no effect on protocol state and are left out.
- `PrintWriter.println` never throws, so every addressed line counts as delivered. Network loss is not modelled.
- Events after a Handler has returned cannot happen. `Step` on a `Closed` session is a no-op.
- Client: the Swing layout, the window title set to the chosen name, clearing the text field after a send, and the console echo of each line are GUI or console effects. The name dialog's answer and the selected recipients are inputs.
- Client: a `null` from `readLine` makes `line.startsWith` throw and ends `run`. `Run` takes only actual lines, so end of stream is not modelled.
- Client: the connection to `localhost` and port 9001 is not modelled.
- ChatClient.Decode: when the character after the USERS, USERCONNECTED or MESSAGE prefix lies outside the Basic Multilingual Plane, Java's `substring` keeps its low surrogate, which a Dafny string cannot hold. The model drops the whole character instead. The server never sends such a line: its lines have `:` or a space there.
- RoundTrip.UsersDecodes: states exact recovery only for names without `,` or `]` and without trimmable ends. For other names the client's list differs from the registry, which the source also allows.

=== FILE: client.dfy ===
/**
 The chat client's side of the protocol: how `run` classifies each line from
 the server by prefix and what it does with the payload, and the lines
 `actionPerformed` writes when the user presses Enter. The Swing widgets are
 reduced to the state they hold: whether the text field is editable, the
 entries of the user list, and the text of the message area.
 */
module ChatClient {
  import opened Wrappers
  import opened Text

  /**
   A server line as `run` reads it. `Unrecognised` matches none of the five
   prefixes and is ignored; `Truncated` matches a prefix but is too short for
   the `substring` that follows, which throws and ends `run`.
   */
  datatype ServerLine =
    | SubmitName
    | NameAccepted
    | Users(entries: seq<string>)
    | UserConnected(name: string)
    | Message(text: string)
    | Unrecognised
    | Truncated

  /** Each piece trimmed, in order. */
  function TrimAll(pieces: seq<string>): (r: seq<string>)
    ensures |r| == |pieces|
    ensures forall i | 0 <= i < |r| :: r[i] == Trim(pieces[i])
  {
    if |pieces| == 0 then [] else [Trim(pieces[0])] + TrimAll(pieces[1..])
  }

  /** `line.substring(6).split(",")` with every piece trimmed. */
  function UserEntries(payload: string): (r: seq<string>)
    ensures |r| >= 1 || ',' in payload
    ensures forall i | 0 <= i < |r| :: Trimmed(r[i])
  {
    TrimAll(JavaSplit(payload, ','))
  }

  /** The characters that tell the five prefixes apart. */
  lemma PrefixMarks(line: string)
    ensures StartsWith(line, "SUBMITNAME") ==> |line| >= 10 && line[0] == 'S'
    ensures StartsWith(line, "NAMEACCEPTED") ==> |line| >= 12 && line[0] == 'N'
    ensures StartsWith(line, "USERS") ==> |line| >= 5 && line[0] == 'U' && line[4] == 'S'
    ensures StartsWith(line, "USERCONNECTED") ==> |line| >= 13 && line[0] == 'U' && line[4] == 'C'
    ensures StartsWith(line, "MESSAGE") ==> |line| >= 7 && line[0] == 'M'
  {
    if StartsWith(line, "SUBMITNAME") { assert line[0] == line[..10][0]; }
    if StartsWith(line, "NAMEACCEPTED") { assert line[0] == line[..12][0]; }
    if StartsWith(line, "USERS") { assert line[0] == line[..5][0] && line[4] == line[..5][4]; }
    if StartsWith(line, "USERCONNECTED") { assert line[0] == line[..13][0] && line[4] == line[..13][4]; }
    if StartsWith(line, "MESSAGE") { assert line[0] == line[..7][0]; }
  }

  /** The three lines that match a prefix but are too short for the payload's substring. */
  lemma ShortLines(line: string)
    ensures StartsWith(line, "USERS") && |line| < 6 <==> line == "USERS"
    ensures StartsWith(line, "USERCONNECTED") && |line| < 14 <==> line == "USERCONNECTED"
    ensures StartsWith(line, "MESSAGE") && |line| < 8 <==> line == "MESSAGE"
  {
    if StartsWith(line, "USERS") && |line| < 6 { assert line == line[..5]; }
    if StartsWith(line, "USERCONNECTED") && |line| < 14 { assert line == line[..13]; }
    if StartsWith(line, "MESSAGE") && |line| < 8 { assert line == line[..7]; }
  }

  /**
   The if/else-if chain of `run`: SUBMITNAME, NAMEACCEPTED, USERS,
   USERCONNECTED, MESSAGE, checked in that order with `startsWith`; the
   payload is what follows the first 6, 14 or 8 characters.
   */
  function Decode(line: string): (m: ServerLine)
    ensures m.SubmitName? <==> StartsWith(line, "SUBMITNAME")
    ensures m.NameAccepted? <==> StartsWith(line, "NAMEACCEPTED")
    ensures m.Unrecognised? <==>
      && !StartsWith(line, "SUBMITNAME")
      && !StartsWith(line, "NAMEACCEPTED")
      && !StartsWith(line, "USERS")
      && !StartsWith(line, "USERCONNECTED")
      && !StartsWith(line, "MESSAGE")
    ensures m.Truncated? <==> line == "USERS" || line == "USERCONNECTED" || line == "MESSAGE"
    ensures m.Users? ==> StartsWith(line, "USERS") && |line| >= 6
    ensures StartsWith(line, "USERS") && |line| >= 6 ==> m == Users(UserEntries(line[6..]))
    ensures StartsWith(line, "MESSAGE") && |line| >= 8 ==> m == Message(line[8..])
    ensures StartsWith(line, "USERCONNECTED") ==> m.UserConnected? || m.Truncated?
    ensures m.UserConnected? ==> StartsWith(line, "USERCONNECTED") && line == line[..14] + m.name
    ensures m.Message? ==> StartsWith(line, "MESSAGE") && line == line[..8] + m.text
  {
    PrefixMarks(line);
    ShortLines(line);
    if StartsWith(line, "SUBMITNAME") then SubmitName
    else if StartsWith(line, "NAMEACCEPTED") then NameAccepted
    else if StartsWith(line, "USERS") then
      if |line| < 6 then Truncated else Users(UserEntries(line[6..]))
    else if StartsWith(line, "USERCONNECTED") then
      if |line| < 14 then Truncated else UserConnected(line[14..])
    else if StartsWith(line, "MESSAGE") then
      if |line| < 8 then Truncated else Message(line[8..])
    else Unrecognised
  }

  /** A line "MESSAGE " + rest shows `rest` in the message area. */
  lemma DecodeMessage(rest: string)
    ensures Decode("MESSAGE " + rest) == Message(rest)
  {
    var line := "MESSAGE " + rest;
    assert line[..7] == "MESSAGE" && line[0] == 'M' && line[8..] == rest;
    PrefixMarks(line);
  }

  /** A line "USERCONNECTED " + rest adds `rest` to the user list. */
  lemma DecodeUserConnected(rest: string)
    ensures Decode("USERCONNECTED " + rest) == UserConnected(rest)
  {
    var line := "USERCONNECTED " + rest;
    assert line[..13] == "USERCONNECTED" && line[0] == 'U' && line[4] == 'C' && line[14..] == rest;
    PrefixMarks(line);
  }

  /** A line "USERS:" + rest lists the trimmed comma-separated pieces of `rest`. */
  lemma DecodeUsers(rest: string)
    ensures Decode("USERS:" + rest) == Users(UserEntries(rest))
  {
    var line := "USERS:" + rest;
    assert line[..5] == "USERS" && line[0] == 'U' && line[4] == 'S' && line[6..] == rest;
    PrefixMarks(line);
  }

  /** What the client shows: the text field's editability, the user list, the message area. */
  datatype ClientState = ClientState(editable: bool, users: seq<string>, area: string)

  /** The constructor leaves the text field not editable and both views empty. */
  function Initial(): ClientState {
    ClientState(false, [], "")
  }

  /** The state after one server line, and the lines the client wrote back. */
  datatype Reaction = Reaction(state: ClientState, sent: seq<string>)

  /** `out.println(getName())`: a cancelled dialog yields null, which println writes as "null". */
  function NameReply(typed: Option<string>): (r: string)
    ensures typed.Some? ==> r == typed.value
    ensures typed.None? ==> r == "null"
  {
    match typed
    case Some(n) => n
    case None => "null"
  }

  /**
   One iteration of the loop in `run`, where `typed` is what the name dialog
   would return if this line asks for a name. None when the line ends `run`.
   */
  function Receive(st: ClientState, line: string, typed: Option<string>): (r: Option<Reaction>)
    ensures r.None? <==> Decode(line).Truncated?
    ensures r.Some? ==> (r.value.state.editable <==> st.editable || Decode(line).NameAccepted?)
    ensures r.Some? ==> st.users <= r.value.state.users
    ensures r.Some? && r.value.sent != [] ==> Decode(line).SubmitName?
    ensures Decode(line).SubmitName? ==> r == Some(Reaction(st, [NameReply(typed)]))
    ensures Decode(line).NameAccepted? ==> r == Some(Reaction(st.(editable := true), []))
    ensures Decode(line).Users? ==> r == Some(Reaction(st.(users := st.users + Decode(line).entries), []))
    ensures Decode(line).UserConnected? ==> r == Some(Reaction(st.(users := st.users + [Decode(line).name]), []))
    ensures Decode(line).Message? ==> r == Some(Reaction(st.(area := st.area + Decode(line).text + "\n"), []))
    ensures Decode(line).Unrecognised? ==> r == Some(Reaction(st, []))
  {
    match Decode(line)
    case SubmitName => Some(Reaction(st, [NameReply(typed)]))
    case NameAccepted => Some(Reaction(st.(editable := true), []))
    case Users(entries) => Some(Reaction(st.(users := st.users + entries), []))
    case UserConnected(n) => Some(Reaction(st.(users := st.users + [n]), []))
    case Message(text) => Some(Reaction(st.(area := st.area + text + "\n"), []))
    case Unrecognised => Some(Reaction(st, []))
    case Truncated => None
  }

  /**
   The loop of `run` over a sequence of server lines, each paired with the
   dialog's answer. It ends in an exception exactly when some line is a
   truncated one; otherwise the user list has only grown and an editable
   field has stayed editable.
   */
  function Run(st: ClientState, inputs: seq<(string, Option<string>)>): (r: Option<ClientState>)
    ensures r.None? <==> exists i | 0 <= i < |inputs| :: Decode(inputs[i].0).Truncated?
    ensures r.Some? ==> st.users <= r.value.users
    ensures r.Some? && st.editable ==> r.value.editable
    decreases |inputs|
  {
    if |inputs| == 0 then Some(st)
    else
      assert forall i | 1 <= i < |inputs| :: inputs[i] == inputs[1..][i - 1];
      match Receive(st, inputs[0].0, inputs[0].1)
      case None => None
      case Some(reaction) =>
        var rest := Run(reaction.state, inputs[1..]);
        assert rest.None? ==> exists i | 0 <= i < |inputs| :: Decode(inputs[i].0).Truncated? by {
          if rest.None? {
            var j :| 0 <= j < |inputs[1..]| && Decode(inputs[1..][j].0).Truncated?;
            assert Decode(inputs[j + 1].0).Truncated?;
          }
        }
        rest
  }

  /**
   The three lines a newly accepted client receives first, in the order the
   server writes them, leave it able to send and listing the given entries
   followed by the announced name.
   */
  lemma GreetingRun(users: string, accepted: string, connected: string, entries: seq<string>, name: string)
    requires Decode(users) == Users(entries)
    requires Decode(accepted) == NameAccepted
    requires Decode(connected) == UserConnected(name)
    ensures Run(Initial(), [(users, None), (accepted, None), (connected, None)])
         == Some(ClientState(true, entries + [name], ""))
  {
    var inputs: seq<(string, Option<string>)> := [(users, None), (accepted, None), (connected, None)];
    var st1 := ClientState(false, entries, "");
    var st2 := ClientState(true, entries, "");
    var st3 := ClientState(true, entries + [name], "");
    assert [] + entries == entries;
    assert Receive(Initial(), inputs[0].0, None) == Some(Reaction(st1, []));
    assert Receive(st1, inputs[1].0, None) == Some(Reaction(st2, []));
    assert Receive(st2, inputs[2].0, None) == Some(Reaction(st3, []));
    assert inputs[1..][1..][1..] == [];
    assert Run(st3, inputs[1..][1..][1..]) == Some(st3);
    assert Run(st2, inputs[1..][1..]) == Some(st3);
    assert Run(st1, inputs[1..]) == Some(st3);
  }

  /**
   The text field becomes editable exactly when NAMEACCEPTED arrives and
   stays editable: after any run that does not end in an exception it is
   editable if and only if it was before or some line was NAMEACCEPTED.
   */
  lemma {:induction false} EditableIffAccepted(st: ClientState, inputs: seq<(string, Option<string>)>)
    requires Run(st, inputs).Some?
    ensures Run(st, inputs).value.editable <==>
      st.editable || exists i | 0 <= i < |inputs| :: Decode(inputs[i].0).NameAccepted?
    decreases |inputs|
  {
    if |inputs| > 0 {
      var reaction := Receive(st, inputs[0].0, inputs[0].1).value;
      EditableIffAccepted(reaction.state, inputs[1..]);
      assert forall i | 1 <= i < |inputs| :: inputs[i] == inputs[1..][i - 1];
      if exists i | 0 <= i < |inputs[1..]| :: Decode(inputs[1..][i].0).NameAccepted? {
        var i :| 0 <= i < |inputs[1..]| && Decode(inputs[1..][i].0).NameAccepted?;
        assert Decode(inputs[i + 1].0).NameAccepted?;
      }
    }
  }

  /**
   `actionPerformed`: with Broadcast ticked, the typed text as it is;
   otherwise one line `user>>text` per selected user, in list order.
   */
  function Compose(broadcast: bool, selected: seq<string>, text: string): (out: seq<string>)
    ensures broadcast ==> out == [text]
    ensures !broadcast ==> |out| == |selected|
    ensures !broadcast ==> forall i | 0 <= i < |out| :: out[i] == selected[i] + ">>" + text
  {
    if broadcast then [text]
    else seq(|selected|, i requires 0 <= i < |selected| => selected[i] + ">>" + text)
  }
}

=== FILE: ordering.dfy ===
/**
 A deterministic listing of a set of names. The server prints `names` and walks
 `writers.values()` in hash-table order, which Java leaves unspecified; the model
 fixes that order to the lexicographic order of the names, so that every
 property stated over it holds for any particular order only where it is
 stated set-wise.
 */
module Ordering {

  /** Lexicographic order on characters (Unicode scalar values), a prefix coming first. */
  predicate LexLe(a: string, b: string)
    decreases |a|
  {
    |a| == 0 || (|b| > 0 && (a[0] < b[0] || (a[0] == b[0] && LexLe(a[1..], b[1..]))))
  }

  lemma {:induction false} LexLeReflexive(a: string)
    ensures LexLe(a, a)
    decreases |a|
  {
    if |a| > 0 {
      LexLeReflexive(a[1..]);
    }
  }

  lemma {:induction false} LexLeTotal(a: string, b: string)
    ensures LexLe(a, b) || LexLe(b, a)
    decreases |a|
  {
    if |a| > 0 && |b| > 0 && a[0] == b[0] {
      LexLeTotal(a[1..], b[1..]);
    }
  }

  lemma {:induction false} LexLeAntisymmetric(a: string, b: string)
    requires LexLe(a, b) && LexLe(b, a)
    ensures a == b
    decreases |a|
  {
    if |a| > 0 {
      assert a[0] == b[0];
      LexLeAntisymmetric(a[1..], b[1..]);
      assert a == [a[0]] + a[1..] && b == [b[0]] + b[1..];
    }
  }

  lemma {:induction false} LexLeTransitive(a: string, b: string, c: string)
    requires LexLe(a, b) && LexLe(b, c)
    ensures LexLe(a, c)
    decreases |a|
  {
    if |a| > 0 && a[0] == b[0] && b[0] == c[0] {
      LexLeTransitive(a[1..], b[1..], c[1..]);
    }
  }

  /** `m` is the first element of `s` in lexicographic order. */
  predicate IsLeast(m: string, s: set<string>) {
    m in s && forall y | y in s :: LexLe(m, y)
  }

  lemma {:induction false} LeastExists(s: set<string>)
    requires s != {}
    ensures exists m :: IsLeast(m, s)
    decreases |s|
  {
    var x :| x in s;
    LexLeReflexive(x);
    if s == {x} {
      assert IsLeast(x, s);
    } else {
      LeastExists(s - {x});
      var m :| IsLeast(m, s - {x});
      LexLeTotal(x, m);
      if LexLe(x, m) {
        forall y | y in s
          ensures LexLe(x, y)
        {
          if y != x {
            LexLeTransitive(x, m, y);
          }
        }
        assert IsLeast(x, s);
      } else {
        assert IsLeast(m, s);
      }
    }
  }

  lemma LeastUnique(s: set<string>)
    ensures forall a, b | IsLeast(a, s) && IsLeast(b, s) :: a == b
  {
    forall a, b | IsLeast(a, s) && IsLeast(b, s)
      ensures a == b
    {
      LexLeAntisymmetric(a, b);
    }
  }

  /**
   Strictly increasing, hence free of duplicates: each element comes before,
   and differs from, every later one.
   */
  predicate StrictlySorted(xs: seq<string>)
    decreases |xs|
  {
    |xs| == 0 ||
    ((forall j | 1 <= j < |xs| :: LexLe(xs[0], xs[j]) && xs[0] != xs[j]) && StrictlySorted(xs[1..]))
  }

  /** The elements of `s`, each once, in lexicographic order. */
  function Enumerate(s: set<string>): (r: seq<string>)
    ensures |r| == |s|
    ensures forall x :: x in r <==> x in s
    ensures StrictlySorted(r)
    decreases |s|
  {
    if s == {} then []
    else
      LeastExists(s);
      LeastUnique(s);
      var m :| m in s && IsLeast(m, s);
      var r := [m] + Enumerate(s - {m});
      assert r[1..] == Enumerate(s - {m});
      r
  }

  /** The head of a strictly sorted listing of `s` is the least element of `s`. */
  lemma SortedHeadIsLeast(xs: seq<string>, s: set<string>)
    requires |xs| > 0 && StrictlySorted(xs)
    requires forall x :: x in xs <==> x in s
    ensures IsLeast(xs[0], s)
  {
    assert xs[0] in xs;
    forall y | y in s
      ensures LexLe(xs[0], y)
    {
      var j :| 0 <= j < |xs| && xs[j] == y;
      if j == 0 { LexLeReflexive(xs[0]); }
    }
  }

  /** Its tail lists the rest of `s`. */
  lemma SortedTailLists(xs: seq<string>, s: set<string>)
    requires |xs| > 0 && StrictlySorted(xs)
    requires forall x :: x in xs <==> x in s
    ensures StrictlySorted(xs[1..])
    ensures forall x :: x in xs[1..] <==> x in s - {xs[0]}
  {
    forall x
      ensures x in xs[1..] <==> x in s - {xs[0]}
    {
      if x in xs[1..] {
        var j :| 1 <= j < |xs| && xs[j] == x;
        assert xs[0] != xs[j];
      }
      if x in s - {xs[0]} {
        var j :| 0 <= j < |xs| && xs[j] == x;
        assert xs[1..][j - 1] == x;
      }
    }
  }

  /** Enumerate is the only strictly sorted listing of a set. */
  lemma {:induction false} SortedListingUnique(xs: seq<string>, s: set<string>)
    requires StrictlySorted(xs)
    requires forall x :: x in xs <==> x in s
    ensures xs == Enumerate(s)
    decreases |xs|
  {
    if |xs| == 0 {
      assert s == {};
    } else {
      var m := xs[0];
      SortedHeadIsLeast(xs, s);
      LeastUnique(s);
      assert Enumerate(s) == [m] + Enumerate(s - {m});
      SortedTailLists(xs, s);
      SortedListingUnique(xs[1..], s - {m});
      assert xs == [m] + xs[1..];
    }
  }
}

=== FILE: roundtrip.dfy ===
/**
 What the two programs make of each other's lines. SUBMITNAME, NAMEACCEPTED,
 USERCONNECTED and MESSAGE lines decode on the client to what the server put
 in; a USERS line does so when no name holds ',' or ']' or starts or ends with
 a character trim removes (an empty room reads as one empty entry). A directed
 line the client composes reaches the selected user with the typed text
 exactly when that name cannot be mistaken for part of the delimiter; a
 broadcast line is broadcast exactly when it holds no ">>".
 */
module RoundTrip {
  import opened Wrappers
  import opened Text
  import opened Ordering
  import S = ChatServer
  import C = ChatClient

  /* ------------------------------------------------ server to client */

  lemma SubmitNameDecodes()
    ensures C.Decode(S.SubmitName) == C.SubmitName
  {
  }

  lemma NameAcceptedDecodes()
    ensures C.Decode(S.NameAccepted) == C.NameAccepted
  {
    assert S.NameAccepted[0] == 'N';
  }

  /** The message area shows `from: body`, the server's line minus "MESSAGE ". */
  lemma MessageDecodes(from: string, body: string)
    ensures C.Decode(S.MessageLine(from, body)) == C.Message(from + ": " + body)
  {
    assert S.MessageLine(from, body) == "MESSAGE " + (from + ": " + body);
    C.DecodeMessage(from + ": " + body);
  }

  /** The user list gains exactly the announced name; the line never takes the USERS branch. */
  lemma UserConnectedDecodes(name: string)
    ensures C.Decode(S.UserConnectedLine(name)) == C.UserConnected(name)
  {
    C.DecodeUserConnected(name);
  }

  /** The entries the client builds from a comma-space join, piece by piece. */
  lemma TrimsOfSpacedTail(xs: seq<string>)
    requires |xs| >= 1
    requires forall i | 0 <= i < |xs| :: Trimmed(xs[i])
    ensures forall i | 0 <= i < |xs| :: Trim(SpacedTail(xs)[i]) == xs[i]
  {
    forall i | 1 <= i < |xs|
      ensures Trim(SpacedTail(xs)[i]) == xs[i]
    {
      assert SpacedTail(xs)[i] == " " + xs[i] + "";
      TrimPadded(" ", xs[i], "");
    }
  }

  lemma PiecesOfJoin(xs: seq<string>)
    requires |xs| >= 1 && NoneContain(xs, ',')
    ensures JavaSplit(Join(xs, ", "), ',') == SpacedTail(xs)
  {
    if |xs| == 1 {
      assert Join(xs, ", ") == xs[0];
      assert SpacedTail(xs) == [xs[0]];
    } else {
      JavaSplitCommaSpaceJoin(xs);
    }
  }

  lemma EntriesOfJoin(xs: seq<string>)
    requires |xs| >= 1
    requires forall i | 0 <= i < |xs| :: ',' !in xs[i] && Trimmed(xs[i])
    ensures C.UserEntries(Join(xs, ", ")) == xs
  {
    assert NoneContain(xs, ',');
    PiecesOfJoin(xs);
    TrimsOfSpacedTail(xs);
    var r := C.TrimAll(SpacedTail(xs));
    assert r == xs;
  }

  /**
   A USERS line lists, after trimming, exactly the names registered before
   the newcomer, as long as there is at least one and none contains a comma
   or a ']' or starts or ends with a character trim removes.
   */
  lemma UsersDecodes(names: set<string>)
    requires names != {}
    requires forall n | n in names :: ',' !in n && ']' !in n && Trimmed(n)
    ensures C.Decode(S.UsersLine(names)) == C.Users(Enumerate(names))
    ensures forall x :: x in C.Decode(S.UsersLine(names)).entries <==> x in names
  {
    var xs := Enumerate(names);
    S.UsersPayloadIsJoin(names);
    C.DecodeUsers(Join(xs, ", "));
    assert forall i | 0 <= i < |xs| :: xs[i] in names;
    EntriesOfJoin(xs);
  }

  /** With nobody registered the line is "USERS:" and the client lists one empty entry. */
  lemma EmptyUsersDecodes()
    ensures S.UsersLine({}) == "USERS:"
    ensures C.Decode(S.UsersLine({})) == C.Users([""])
  {
    assert Enumerate({}) == [];
    assert S.UsersPayload({}) == Remove("]", ']') == "";
    C.DecodeUsers("");
    assert JavaSplit("", ',') == [""];
    assert Trim("") == "";
    assert C.UserEntries("") == [""];
  }

  /**
   A newcomer that receives the greeting the server sends on acceptance ends
   up with sending enabled and a user list of the earlier names followed by
   its own (from its own USERCONNECTED announcement).
   */
  lemma NewcomerSeesRoster(names: set<string>, name: string)
    requires names != {}
    requires forall n | n in names :: ',' !in n && ']' !in n && Trimmed(n)
    ensures C.Run(C.Initial(), [(S.UsersLine(names), None), (S.NameAccepted, None), (S.UserConnectedLine(name), None)])
         == Some(C.ClientState(true, Enumerate(names) + [name], ""))
  {
    UsersDecodes(names);
    NameAcceptedDecodes();
    UserConnectedDecodes(name);
    C.GreetingRun(S.UsersLine(names), S.NameAccepted, S.UserConnectedLine(name), Enumerate(names), name);
  }

  /** The first client to join sees an empty entry in its user list before its own name. */
  lemma FirstComerSeesEmptyEntry(name: string)
    ensures C.Run(C.Initial(), [(S.UsersLine({}), None), (S.NameAccepted, None), (S.UserConnectedLine(name), None)])
         == Some(C.ClientState(true, ["", name], ""))
  {
    EmptyUsersDecodes();
    NameAcceptedDecodes();
    UserConnectedDecodes(name);
    C.GreetingRun(S.UsersLine({}), S.NameAccepted, S.UserConnectedLine(name), [""], name);
    assert [""] + [name] == ["", name];
  }

  /* ------------------------------------------------ client to server */

  /**
   The server splits `user>>text` back into `user` and `text` exactly when
   `user` holds no ">>" and does not end in '>'.
   */
  lemma DirectedRoundTrip(user: string, text: string)
    ensures S.RouteLine(user + ">>" + text) == S.Directed(user, text) <==> S.SplitsAtEnd(user)
  {
    var s := user + ">>" + text;
    if S.SplitsAtEnd(user) {
      assert S.DelimAt(s, |user|);
      var r := S.RouteLine(s);
      S.SplitUnique(r.recipient, r.body, user, text);
    }
  }

  /** Every line of a directed send reaches its selected user with the typed text, under the same condition. */
  lemma DirectedSendRoutes(selected: seq<string>, text: string)
    ensures forall i | 0 <= i < |selected| ::
      S.RouteLine(C.Compose(false, selected, text)[i]) == S.Directed(selected[i], text) <==> S.SplitsAtEnd(selected[i])
  {
    forall i | 0 <= i < |selected|
      ensures S.RouteLine(C.Compose(false, selected, text)[i]) == S.Directed(selected[i], text) <==> S.SplitsAtEnd(selected[i])
    {
      DirectedRoundTrip(selected[i], text);
    }
  }

  /** A broadcast send is the raw text, which the server broadcasts only if it holds no ">>". */
  lemma BroadcastSendRoutes(selected: seq<string>, text: string)
    ensures C.Compose(true, selected, text) == [text]
    ensures S.RouteLine(text) == S.ToAll(text) <==> !S.ContainsDelim(text)
    ensures S.ContainsDelim(text) ==> S.RouteLine(text).Directed?
  {
  }
}

=== FILE: scenarios.dfy ===
/**
 Runs of the server from an empty room, for any names: joining, retrying a
 taken name, broadcasting, directed messages, leaving, and the run in which
 a rejected candidate's failed read evicts the name's owner so that a third
 client can claim the name again. Sessions are numbered in the order they
 connect; where two names are announced in turn, `a` is the one that comes
 first in the model's listing order.
 */
module Scenarios {
  import opened Wrappers
  import opened Ordering
  import opened ChatServer
  import RoundTrip

  lemma EnumerateOne(a: string)
    ensures Enumerate({a}) == [a]
  {
    SortedListingUnique([a], {a});
  }

  lemma EnumerateTwo(a: string, b: string)
    requires LexLe(a, b) && a != b
    ensures Enumerate({a, b}) == [a, b]
  {
    SortedListingUnique([a, b], {a, b});
  }

  /** A map with one entry fans out to that entry's session. */
  lemma FanoutOne(n: string, sid: SessionId, line: string)
    ensures Fanout(map[n := sid], line) == [Delivery(sid, line)]
  {
    var m := map[n := sid];
    assert m.Keys == {n};
    EnumerateOne(n);
    var r := DeliverEach(m, [n], line);
    assert r[0] == Delivery(sid, line);
    assert Fanout(m, line) == r;
  }

  /** Two writers, in name order. */
  lemma FanoutTwo(a: string, b: string, x: SessionId, y: SessionId, line: string)
    requires LexLe(a, b) && a != b
    ensures Fanout(map[a := x, b := y], line) == [Delivery(x, line), Delivery(y, line)]
  {
    var m := map[a := x, b := y];
    assert m.Keys == {a, b};
    EnumerateTwo(a, b);
    var r := DeliverEach(m, [a, b], line);
    assert r[0] == Delivery(x, line) && r[1] == Delivery(y, line);
    assert Fanout(m, line) == r;
  }

  /** The acceptance greeting in a room where the newcomer is the only writer. */
  lemma GreetingAlone(sid: SessionId, users: string, a: string)
    ensures [Delivery(sid, users), Delivery(sid, NameAccepted)] + Fanout(map[a := sid], UserConnectedLine(a))
         == [Delivery(sid, users), Delivery(sid, NameAccepted), Delivery(sid, UserConnectedLine(a))]
  {
    FanoutOne(a, sid, UserConnectedLine(a));
  }

  /** The acceptance greeting of `b` when `a` is the only other writer. */
  lemma GreetingPair(a: string, b: string, x: SessionId, y: SessionId, users: string)
    requires LexLe(a, b) && a != b
    ensures [Delivery(y, users), Delivery(y, NameAccepted)] + Fanout(map[a := x, b := y], UserConnectedLine(b))
         == [Delivery(y, users), Delivery(y, NameAccepted), Delivery(x, UserConnectedLine(b)), Delivery(y, UserConnectedLine(b))]
  {
    FanoutTwo(a, b, x, y, UserConnectedLine(b));
  }

  /** A free candidate, as one step of the world. */
  lemma AcceptStep(w: World, sid: SessionId, lastRead: Option<string>, n: string)
    requires sid < |w.sessions| && w.sessions[sid] == Naming(lastRead) && n !in w.reg.names
    ensures Step(w, sid, Line(n))
         == StepResult(World(Registry(w.reg.names + {n}, w.reg.writers[n := sid]), w.sessions[sid := Active(n)]),
                       [Delivery(sid, UsersLine(w.reg.names)), Delivery(sid, NameAccepted)]
                       + Fanout(w.reg.writers[n := sid], UserConnectedLine(n)))
  {
  }

  /** A line from an active session changes nothing but what it sends. */
  lemma RelayStep(w: World, sid: SessionId, name: string, line: string)
    requires sid < |w.sessions| && w.sessions[sid] == Active(name)
    ensures Step(w, sid, Line(line)) == StepResult(w, Relay(w.reg, name, line))
  {
    assert w.sessions[sid := Active(name)] == w.sessions;
  }

  /** `a` alone in the room. */
  function Alone(a: string): World {
    World(Registry({a}, map[a := 0]), [Active(a)])
  }

  /** `a` and then `b`, both accepted. */
  function Both(a: string, b: string): World {
    World(Registry({a, b}, map[a := 0, b := 1]), [Active(a), Active(b)])
  }

  /** The first client is asked for a name. */
  lemma FirstClientConnects()
    ensures Connect(Init()) == StepResult(World(Registry({}, map[]), [Naming(None)]), [Delivery(0, SubmitName)])
  {
  }

  /**
   On submitting a name the first client receives the empty user list, the
   acceptance, and its own arrival.
   */
  lemma FirstClientJoins(a: string)
    ensures Step(World(Registry({}, map[]), [Naming(None)]), 0, Line(a))
         == StepResult(Alone(a), [Delivery(0, UsersLine({})), Delivery(0, NameAccepted), Delivery(0, UserConnectedLine(a))])
  {
    var w := World(Registry({}, map[]), [Naming(None)]);
    AcceptStep(w, 0, None, a);
    assert w.reg.writers[a := 0] == map[a := 0];
    assert w.sessions[0 := Active(a)] == [Active(a)];
    GreetingAlone(0, UsersLine({}), a);
  }

  /** A second client is asked for a name like the first. */
  lemma SecondClientConnects(a: string)
    ensures Connect(Alone(a)) == StepResult(World(Alone(a).reg, [Active(a), Naming(None)]), [Delivery(1, SubmitName)])
  {
  }

  /**
   A client that submits a taken name is asked again and keeps the candidate
   in its `name` field; the registry does not change.
   */
  lemma TakenNameAskedAgain(a: string)
    ensures Step(World(Alone(a).reg, [Active(a), Naming(None)]), 1, Line(a))
         == StepResult(World(Alone(a).reg, [Active(a), Naming(Some(a))]), [Delivery(1, SubmitName)])
  {
  }

  /**
   Under a free name the second client's Handler is accepted with the first
   name listed, and both clients hear of the arrival.
   */
  lemma SecondNameAccepted(a: string, b: string)
    requires LexLe(a, b) && a != b
    ensures NamingStep(Alone(a).reg, 1, Some(a), Line(b))
         == Transition(Both(a, b).reg, Active(b), [Delivery(1, UsersLine({a})), Delivery(1, NameAccepted),
                                                  Delivery(0, UserConnectedLine(b)), Delivery(1, UserConnectedLine(b))])
  {
    var reg := Alone(a).reg;
    assert reg.writers[b := 1] == map[a := 0, b := 1];
    assert reg.names + {b} == {a, b};
    GreetingPair(a, b, 0, 1, UsersLine({a}));
  }

  /** A line without ">>" reaches every accepted client, the sender included. */
  lemma BroadcastReachesEveryone(a: string, b: string, text: string)
    requires LexLe(a, b) && a != b
    requires !ContainsDelim(text)
    ensures Step(Both(a, b), 0, Line(text))
         == StepResult(Both(a, b), [Delivery(0, MessageLine(a, text)), Delivery(1, MessageLine(a, text))])
  {
    RelayStep(Both(a, b), 0, a, text);
    FanoutTwo(a, b, 0, 1, MessageLine(a, text));
  }

  /** A directed line reaches only its recipient, whatever ">>" the text holds. */
  lemma DirectedReachesRecipientOnly(a: string, b: string, text: string)
    requires a != b && SplitsAtEnd(b)
    ensures Step(Both(a, b), 0, Line(b + ">>" + text))
         == StepResult(Both(a, b), [Delivery(1, MessageLine(a, text))])
  {
    RelayStep(Both(a, b), 0, a, b + ">>" + text);
    RoundTrip.DirectedRoundTrip(b, text);
  }

  /** A directed line to a name nobody holds goes nowhere. */
  lemma UnknownRecipientDropped(a: string, b: string, c: string, text: string)
    requires c != a && c != b && SplitsAtEnd(c)
    ensures Step(Both(a, b), 0, Line(c + ">>" + text)) == StepResult(Both(a, b), [])
  {
    RelayStep(Both(a, b), 0, a, c + ">>" + text);
    RoundTrip.DirectedRoundTrip(c, text);
  }

  /** When a client's stream ends its session closes and its name is freed. */
  lemma LeaverNameFreed(a: string, b: string)
    requires a != b
    ensures Step(Both(a, b), 1, Eof) == StepResult(World(Alone(a).reg, [Active(a), Closed]), [])
  {
    assert map[a := 0, b := 1] - {b} == map[a := 0];
    assert {a, b} - {b} == {a};
  }

  /** A newcomer's Handler may then take the freed name. */
  lemma FreedNameReusable(a: string, b: string)
    requires a != b
    ensures
      var t := NamingStep(Alone(a).reg, 2, None, Line(b));
      && t.reg == Registry({a, b}, map[a := 0, b := 2])
      && t.phase == Active(b)
  {
    assert map[a := 0][b := 2] == map[a := 0, b := 2];
    assert {a} + {b} == {a, b};
  }

  /**
   The eviction run: a second connection submits the first client's name, is
   refused, and then fails on its next read. Its cleanup removes the name
   although it is the first client's, whose session stays active; a third
   client is then accepted under the same name with an empty user list,
   leaving two active sessions that carry it.
   */
  lemma RejectedCandidateEviction(a: string, socketException: bool)
    ensures
      var w1 := Connect(Alone(a)).world;
      var w2 := Step(w1, 1, Line(a)).world;
      var w3 := Step(w2, 1, ReadFailed(socketException)).world;
      && w3 == World(Registry({}, map[]), [Active(a), Closed])
      && var w4 := Connect(w3).world;
         var r := Step(w4, 2, Line(a));
         && r.outputs[..2] == [Delivery(2, UsersLine({})), Delivery(2, NameAccepted)]
         && r.world.sessions == [Active(a), Closed, Active(a)]
         && r.world.reg.writers == map[a := 2]
  {
    assert map[a := 0] - {a} == map[];
    assert {a} - {a} == {};
  }
}

=== FILE: server.dfy ===
/**
 The chat server: the two shared collections (`names` and `writers`), the
 per-connection Handler state machine, and the router that chooses between a
 directed delivery and a broadcast. Every Handler is a phase in a World value;
 one atomic step of one Handler maps a World and an input event to the next
 World and the lines that step writes, each addressed to a session.
 */
module ChatServer {
  import opened Wrappers
  import opened Text
  import opened Ordering

  /** Identifies a connection (its Handler and its PrintWriter). */
  type SessionId = nat

  /** One `println` on the writer of session `to`. */
  datatype Delivery = Delivery(to: SessionId, line: string)

  /** The static fields `names` (claimed names) and `writers` (name to writer). */
  datatype Registry = Registry(names: set<string>, writers: map<string, SessionId>)

  /**
   Where a Handler is in `run`. `Naming` carries the Handler's `name` field,
   which holds the last line read (None when nothing was read yet or the last
   read returned null); `Active` carries the accepted name.
   */
  datatype Phase = Naming(lastRead: Option<string>) | Active(name: string) | Closed

  /** All sessions ever connected, indexed by their SessionId, and the shared registry. */
  datatype World = World(reg: Registry, sessions: seq<Phase>)

  /**
   What one `readLine` on a Handler's socket yields: a line, null (end of
   stream), or an exception; `socketException` tells a SocketException (which
   the Handler catches and tears down for, before `finally` tears down again)
   from any other IOException.
   */
  datatype Event = Line(text: string) | Eof | ReadFailed(socketException: bool)

  /** The effect of one event on the registry and on the reading session. */
  datatype Transition = Transition(reg: Registry, phase: Phase, outputs: seq<Delivery>)

  datatype StepResult = StepResult(world: World, outputs: seq<Delivery>)

  /* --------------------------------------------------------- line formats */

  const SubmitName: string := "SUBMITNAME"
  const NameAccepted: string := "NAMEACCEPTED"

  /** `names.toString().substring(1).replace("]", "")`: the comma-space join without brackets. */
  function UsersPayload(names: set<string>): (r: string)
    ensures ']' !in r
  {
    Remove(("[" + Join(Enumerate(names), ", ") + "]")[1..], ']')
  }

  /**
   `out.println("USERS:" + users)`: six characters of header, which a client's
   `substring(6)` skips, then the payload, with no ']' anywhere.
   */
  function UsersLine(names: set<string>): (r: string)
    ensures |r| >= 6 && r[..6] == "USERS:" && r[6..] == UsersPayload(names)
    ensures ']' !in r
  {
    "USERS:" + UsersPayload(names)
  }

  /** The announcement of `name`: fourteen characters of header, then the name itself. */
  function UserConnectedLine(name: string): (r: string)
    ensures |r| == 14 + |name| && r[..14] == "USERCONNECTED " && r[14..] == name
  {
    "USERCONNECTED " + name
  }

  /** A relayed message: eight characters of header, then `from`, ": " and the body. */
  function MessageLine(from: string, body: string): (r: string)
    ensures |r| == 10 + |from| + |body| && r[..8] == "MESSAGE "
    ensures r[8..8 + |from|] == from && r[8 + |from|..10 + |from|] == ": " && r[10 + |from|..] == body
  {
    "MESSAGE " + from + ": " + body
  }

  /**
   For every registry the payload is the names joined by ", " with every ']'
   deleted: the opening bracket goes with `substring(1)`, and `replace` takes
   the closing one together with any ']' inside a name.
   */
  lemma UsersPayloadStripsBrackets(names: set<string>)
    ensures UsersPayload(names) == Remove(Join(Enumerate(names), ", "), ']')
  {
    var j := Join(Enumerate(names), ", ");
    assert ("[" + j + "]")[1..] == j + "]";
    RemoveConcat(j, "]", ']');
    assert Remove("]", ']') == "";
    assert Remove(j, ']') + "" == Remove(j, ']');
  }

  /** When no name holds a ']', the payload is exactly the names joined by ", ". */
  lemma UsersPayloadIsJoin(names: set<string>)
    requires forall n | n in names :: ']' !in n
    ensures UsersPayload(names) == Join(Enumerate(names), ", ")
  {
    var xs := Enumerate(names);
    var j := Join(xs, ", ");
    UsersPayloadStripsBrackets(names);
    assert NoneContain(xs, ']') by {
      forall i | 0 <= i < |xs| ensures ']' !in xs[i] {
        assert xs[i] in names;
      }
    }
    JoinAvoids(xs, ", ", ']');
  }

  /* --------------------------------------------------------------- router */

  /** A ">>" starts at index `i` of `s`. */
  predicate DelimAt(s: string, i: int) {
    0 <= i && i + 1 < |s| && s[i] == '>' && s[i + 1] == '>'
  }

  /** Java's `s.contains(">>")`. */
  predicate ContainsDelim(s: string) {
    exists i | 0 <= i < |s| :: DelimAt(s, i)
  }

  /** In `u + ">>"` the first ">>" starts right after `u`. */
  predicate SplitsAtEnd(u: string) {
    !ContainsDelim(u) && (|u| == 0 || u[|u| - 1] != '>')
  }

  /** The index of the first ">>" at or after `k`. */
  function FindDelimFrom(s: string, k: nat): (r: Option<nat>)
    requires k <= |s|
    ensures r.Some? ==> k <= r.value && DelimAt(s, r.value)
    ensures r.Some? ==> forall j | k <= j < r.value :: !DelimAt(s, j)
    ensures r.None? ==> forall j | k <= j :: !DelimAt(s, j)
    decreases |s| - k
  {
    if k + 1 >= |s| then None
    else if s[k] == '>' && s[k + 1] == '>' then Some(k)
    else FindDelimFrom(s, k + 1)
  }

  /** How the relay loop treats one input line. */
  datatype Route = Directed(recipient: string, body: string) | ToAll(body: string)

  /**
   `input.contains(">>")`, then `input.split(">>", 2)`: the text before the
   first ">>" names the recipient and everything after it, further ">>"
   included, is the body; a line without ">>" is broadcast whole.
   */
  function RouteLine(s: string): (r: Route)
    ensures r.ToAll? <==> !ContainsDelim(s)
    ensures r.ToAll? ==> r.body == s
    ensures r.Directed? ==> s == r.recipient + ">>" + r.body && SplitsAtEnd(r.recipient)
  {
    match FindDelimFrom(s, 0)
    case None => ToAll(s)
    case Some(i) =>
      assert s == s[..i] + ">>" + s[i + 2..] by {
        assert s[i..i + 2] == ">>";
        assert s == s[..i] + s[i..i + 2] + s[i + 2..];
      }
      assert i == 0 || s[..i][i - 1] != '>' by {
        if i > 0 {
          assert !DelimAt(s, i - 1);
        }
      }
      assert !ContainsDelim(s[..i]) by {
        forall j | DelimAt(s[..i], j) ensures false {
          assert DelimAt(s, j);
        }
      }
      Directed(s[..i], s[i + 2..])
  }

  /** At most one way to write a line as a recipient that splits at its end, ">>", and a body. */
  lemma SplitUnique(u1: string, b1: string, u2: string, b2: string)
    requires u1 + ">>" + b1 == u2 + ">>" + b2
    requires SplitsAtEnd(u1) && SplitsAtEnd(u2)
    ensures u1 == u2 && b1 == b2
  {
    var s := u1 + ">>" + b1;
    assert DelimAt(s, |u1|) && DelimAt(s, |u2|);
    assert |u1| == |u2| by {
      if |u1| + 1 < |u2| {
        assert DelimAt(u2, |u1|);
      } else if |u2| + 1 < |u1| {
        assert DelimAt(u1, |u2|);
      }
    }
    assert u1 == s[..|u1|] && u2 == s[..|u2|];
    assert b1 == s[|u1| + 2..] && b2 == s[|u2| + 2..];
  }

  /* ------------------------------------------------------------- delivery */

  /** One delivery of `line` to the writer of each name in `keys`, in that order. */
  function DeliverEach(writers: map<string, SessionId>, keys: seq<string>, line: string): (r: seq<Delivery>)
    requires forall i | 0 <= i < |keys| :: keys[i] in writers
    ensures |r| == |keys|
    ensures forall i | 0 <= i < |r| :: r[i] == Delivery(writers[keys[i]], line)
  {
    if |keys| == 0 then [] else [Delivery(writers[keys[0]], line)] + DeliverEach(writers, keys[1..], line)
  }

  /** Listing every name once, the deliveries reach every writer and only writers. */
  lemma DeliverEachCovers(writers: map<string, SessionId>, keys: seq<string>, line: string)
    requires forall n :: n in keys <==> n in writers
    ensures forall i | 0 <= i < |keys| :: keys[i] in writers
    ensures forall i | 0 <= i < |keys| :: DeliverEach(writers, keys, line)[i].to in writers.Values
    ensures forall n | n in writers :: Delivery(writers[n], line) in DeliverEach(writers, keys, line)
  {
    assert forall i | 0 <= i < |keys| :: keys[i] in writers by {
      forall i | 0 <= i < |keys| ensures keys[i] in writers {
        assert keys[i] in keys;
      }
    }
    var r := DeliverEach(writers, keys, line);
    forall i | 0 <= i < |keys|
      ensures r[i].to in writers.Values
    {
      assert r[i].to == writers[keys[i]];
    }
    forall n | n in writers
      ensures Delivery(writers[n], line) in r
    {
      var i :| 0 <= i < |keys| && keys[i] == n;
      assert r[i] == Delivery(writers[n], line);
    }
  }

  /**
   One line to every writer, in key order (the model's stand-in for
   `writers.values()` iteration order): one delivery per registered name.
   */
  function Fanout(writers: map<string, SessionId>, line: string): (r: seq<Delivery>)
    ensures |r| == |writers|
    ensures forall i | 0 <= i < |r| :: r[i].line == line && r[i].to in writers.Values
    ensures forall n | n in writers :: Delivery(writers[n], line) in r
  {
    var keys := Enumerate(writers.Keys);
    DeliverEachCovers(writers, keys, line);
    DeliverEach(writers, keys, line)
  }

  /** `broadcast(from, msg)`: every registered writer, the sender's own included. */
  function Broadcast(reg: Registry, from: string, msg: string): (r: seq<Delivery>)
    ensures |r| == |reg.writers|
    ensures forall i | 0 <= i < |r| :: r[i].line == MessageLine(from, msg) && r[i].to in reg.writers.Values
    ensures forall n | n in reg.writers :: Delivery(reg.writers[n], MessageLine(from, msg)) in r
  {
    Fanout(reg.writers, MessageLine(from, msg))
  }

  /** `p2p(from, msg, to)`: the recipient's writer only, or nobody when `to` is not registered. */
  function P2P(reg: Registry, from: string, msg: string, to: string): (r: seq<Delivery>)
    ensures to in reg.writers ==> r == [Delivery(reg.writers[to], MessageLine(from, msg))]
    ensures to !in reg.writers ==> r == []
  {
    if to in reg.writers then [Delivery(reg.writers[to], MessageLine(from, msg))] else []
  }

  /** What one line of an active session named `from` sends, and to whom. */
  function Relay(reg: Registry, from: string, line: string): (r: seq<Delivery>)
    ensures !ContainsDelim(line) ==>
      && |r| == |reg.writers|
      && (forall i | 0 <= i < |r| :: r[i].line == MessageLine(from, line) && r[i].to in reg.writers.Values)
      && (forall n | n in reg.writers :: Delivery(reg.writers[n], MessageLine(from, line)) in r)
    ensures ContainsDelim(line) ==>
      var route := RouteLine(line);
      && |r| <= 1
      && (r == [] <==> route.recipient !in reg.writers)
      && (route.recipient in reg.writers ==>
            r == [Delivery(reg.writers[route.recipient], MessageLine(from, route.body))])
  {
    match RouteLine(line)
    case Directed(to, body) => P2P(reg, from, body, to)
    case ToAll(msg) => Broadcast(reg, from, msg)
  }

  /* ------------------------------------------------------------- teardown */

  /** `names.remove(name)` and `writers.remove(name)`; both are no-ops for null. */
  function Unregister(reg: Registry, name: Option<string>): (r: Registry)
    ensures name.None? ==> r == reg
    ensures name.Some? ==> name.value !in r.names && name.value !in r.writers
    ensures forall n | Some(n) != name :: n in r.names <==> n in reg.names
    ensures forall n | Some(n) != name && n in reg.writers :: n in r.writers && r.writers[n] == reg.writers[n]
    ensures r.writers.Keys <= reg.writers.Keys
  {
    match name
    case None => reg
    case Some(n) => Registry(reg.names - {n}, reg.writers - {n})
  }

  /**
   The cleanup a Handler runs when it leaves `run`: once in `finally`, and a
   first time before that in the SocketException handler. The second run
   changes nothing.
   */
  function Teardown(reg: Registry, name: Option<string>, socketException: bool): (r: Registry)
    ensures r == Unregister(reg, name)
  {
    var once := Unregister(reg, name);
    if socketException then Unregister(once, name) else once
  }

  /* ------------------------------------------------------- handler phases */

  /**
   One event for a Handler in its naming loop, whose `name` field holds `lastRead`.
   A line is the next candidate: a taken one is answered with SUBMITNAME again;
   a free one is answered with the names present before it, then NAMEACCEPTED,
   is entered in both collections, and is announced to every writer, its own
   included. End of stream leaves the loop with `name` null, so the cleanup
   removes nothing; an exception leaves it with `name` still holding the last
   candidate, which the cleanup removes whoever holds it.
   */
  function NamingStep(reg: Registry, sid: SessionId, lastRead: Option<string>, ev: Event): (t: Transition)
    ensures ev.Line? && ev.text in reg.names ==>
      t == Transition(reg, Naming(Some(ev.text)), [Delivery(sid, SubmitName)])
    ensures ev.Line? && ev.text !in reg.names ==>
      && t.reg.names == reg.names + {ev.text}
      && t.reg.writers == reg.writers[ev.text := sid]
      && t.phase == Active(ev.text)
      && |t.outputs| == 2 + |t.reg.writers|
      && t.outputs[0] == Delivery(sid, UsersLine(reg.names))
      && t.outputs[1] == Delivery(sid, NameAccepted)
      && (forall i | 2 <= i < |t.outputs| :: t.outputs[i].line == UserConnectedLine(ev.text) && t.outputs[i].to in t.reg.writers.Values)
      && (forall n | n in t.reg.writers :: Delivery(t.reg.writers[n], UserConnectedLine(ev.text)) in t.outputs[2..])
    ensures ev.Eof? ==> t == Transition(reg, Closed, [])
    ensures ev.ReadFailed? ==> t == Transition(Unregister(reg, lastRead), Closed, [])
  {
    match ev
    case Line(n) =>
      if n in reg.names then
        Transition(reg, Naming(Some(n)), [Delivery(sid, SubmitName)])
      else
        var reg' := Registry(reg.names + {n}, reg.writers[n := sid]);
        var greeting := [Delivery(sid, UsersLine(reg.names)), Delivery(sid, NameAccepted)];
        var announce := Fanout(reg'.writers, UserConnectedLine(n));
        assert (greeting + announce)[2..] == announce;
        Transition(reg', Active(n), greeting + announce)
    case Eof => Transition(Teardown(reg, None, false), Closed, [])
    case ReadFailed(socketException) => Transition(Teardown(reg, lastRead, socketException), Closed, [])
  }

  /**
   One event for a Handler in its relay loop: a line is routed and leaves the
   registry alone; end of stream or an exception ends the session and removes
   its name.
   */
  function ActiveStep(reg: Registry, name: string, ev: Event): (t: Transition)
    ensures ev.Line? ==> t == Transition(reg, Active(name), Relay(reg, name, ev.text))
    ensures !ev.Line? ==> t == Transition(Unregister(reg, Some(name)), Closed, [])
  {
    match ev
    case Line(s) => Transition(reg, Active(name), Relay(reg, name, s))
    case Eof => Transition(Teardown(reg, Some(name), false), Closed, [])
    case ReadFailed(socketException) => Transition(Teardown(reg, Some(name), socketException), Closed, [])
  }

  /* ---------------------------------------------------------------- world */

  function Init(): World {
    World(Registry({}, map[]), [])
  }

  /** A new connection: a Handler whose `name` is null, which first writes SUBMITNAME. */
  function Connect(w: World): (r: StepResult)
    ensures r.world.reg == w.reg
    ensures |r.world.sessions| == |w.sessions| + 1 && r.world.sessions[..|w.sessions|] == w.sessions
    ensures r.world.sessions[|w.sessions|] == Naming(None)
    ensures r.outputs == [Delivery(|w.sessions|, SubmitName)]
  {
    var sid := |w.sessions|;
    StepResult(World(w.reg, w.sessions + [Naming(None)]), [Delivery(sid, SubmitName)])
  }

  /**
   One event delivered to session `sid`. A closed session's thread has returned,
   so nothing reaches it. Only `sid`'s phase changes; a line never removes a
   name and end of stream or an exception never adds one.
   */
  function Step(w: World, sid: SessionId, ev: Event): (r: StepResult)
    requires sid < |w.sessions|
    ensures |r.world.sessions| == |w.sessions|
    ensures forall o | 0 <= o < |w.sessions| && o != sid :: r.world.sessions[o] == w.sessions[o]
    ensures w.sessions[sid].Closed? ==> r == StepResult(w, [])
    ensures ev.Line? ==> w.reg.names <= r.world.reg.names && w.reg.writers.Keys <= r.world.reg.writers.Keys
    ensures !ev.Line? ==> r.world.reg.names <= w.reg.names && r.world.reg.writers.Keys <= w.reg.writers.Keys
    ensures !ev.Line? ==> r.outputs == [] && r.world.sessions[sid].Closed?
  {
    match w.sessions[sid]
    case Closed => StepResult(w, [])
    case Naming(lastRead) =>
      var t := NamingStep(w.reg, sid, lastRead, ev);
      StepResult(World(t.reg, w.sessions[sid := t.phase]), t.outputs)
    case Active(name) =>
      var t := ActiveStep(w.reg, name, ev);
      StepResult(World(t.reg, w.sessions[sid := t.phase]), t.outputs)
  }

  /* ----------------------------------------------------------- invariant */

  /**
   The registry invariant the atomic-step model keeps: the two collections
   have the same names, and every registered name belongs to a live session
   that accepted exactly that name. (The converse, that every active session
   is registered, does not hold: see RejectedCandidateEvictsOwner.)
   */
  ghost predicate Valid(w: World) {
    && w.reg.names == w.reg.writers.Keys
    && forall n | n in w.reg.writers ::
         w.reg.writers[n] < |w.sessions| && w.sessions[w.reg.writers[n]] == Active(n)
  }

  lemma InitValid()
    ensures Valid(Init())
  {
  }

  lemma ConnectPreservesValid(w: World)
    requires Valid(w)
    ensures Valid(Connect(w).world)
  {
    var w' := Connect(w).world;
    forall n | n in w'.reg.writers
      ensures w'.reg.writers[n] < |w'.sessions| && w'.sessions[w'.reg.writers[n]] == Active(n)
    {
      assert w'.sessions[w.reg.writers[n]] == w.sessions[w.reg.writers[n]];
    }
  }

  /**
   The shape every step has: only `sid` changes phase, and each registered
   name either keeps a writer of another session or is `sid`'s new name.
   */
  lemma {:induction false} UpdatePreservesValid(w: World, sid: SessionId, reg': Registry, phase': Phase)
    requires Valid(w) && sid < |w.sessions|
    requires reg'.names == reg'.writers.Keys
    requires forall n | n in reg'.writers ::
      || (n in w.reg.writers && reg'.writers[n] == w.reg.writers[n] && w.reg.writers[n] != sid)
      || (reg'.writers[n] == sid && phase' == Active(n))
    ensures Valid(World(reg', w.sessions[sid := phase']))
  {
    var ss := w.sessions[sid := phase'];
    forall n | n in reg'.writers
      ensures reg'.writers[n] < |ss| && ss[reg'.writers[n]] == Active(n)
    {
      if reg'.writers[n] != sid {
        assert ss[w.reg.writers[n]] == w.sessions[w.reg.writers[n]];
      }
    }
  }

  lemma NamingPreservesValid(w: World, sid: SessionId, lastRead: Option<string>, ev: Event)
    requires Valid(w) && sid < |w.sessions| && w.sessions[sid] == Naming(lastRead)
    ensures
      var t := NamingStep(w.reg, sid, lastRead, ev);
      Valid(World(t.reg, w.sessions[sid := t.phase]))
  {
    // no registered name points at a session still naming
    assert forall n | n in w.reg.writers :: w.reg.writers[n] != sid;
    var t := NamingStep(w.reg, sid, lastRead, ev);
    UpdatePreservesValid(w, sid, t.reg, t.phase);
  }

  lemma ActivePreservesValid(w: World, sid: SessionId, name: string, ev: Event)
    requires Valid(w) && sid < |w.sessions| && w.sessions[sid] == Active(name)
    ensures
      var t := ActiveStep(w.reg, name, ev);
      Valid(World(t.reg, w.sessions[sid := t.phase]))
  {
    assert forall n | n in w.reg.writers && n != name :: w.reg.writers[n] != sid;
    var t := ActiveStep(w.reg, name, ev);
    UpdatePreservesValid(w, sid, t.reg, t.phase);
  }

  /** Every step keeps the registry invariant. */
  lemma StepPreservesValid(w: World, sid: SessionId, ev: Event)
    requires Valid(w) && sid < |w.sessions|
    ensures Valid(Step(w, sid, ev).world)
  {
    match w.sessions[sid]
    case Closed =>
    case Naming(lastRead) => NamingPreservesValid(w, sid, lastRead, ev);
    case Active(name) => ActivePreservesValid(w, sid, name, ev);
  }

  /** Under the invariant, no two registered names share a writer. */
  lemma WritersInjective(w: World)
    requires Valid(w)
    ensures forall a, b | a in w.reg.writers && b in w.reg.writers && w.reg.writers[a] == w.reg.writers[b] :: a == b
  {
  }

  /**
   The teardown quirk: a Handler that read a candidate already taken and then
   fails on its next read removes that name from both collections, although
   the name belongs to another session, which stays active and unregistered.
   */
  lemma RejectedCandidateEvictsOwner(w: World, sid: SessionId, n: string, socketException: bool)
    requires Valid(w) && sid < |w.sessions|
    requires w.sessions[sid] == Naming(Some(n)) && n in w.reg.names
    ensures
      var w' := Step(w, sid, ReadFailed(socketException)).world;
      var owner := w.reg.writers[n];
      && owner != sid
      && n !in w'.reg.names && n !in w'.reg.writers
      && w'.sessions[owner] == Active(n)
      && w'.sessions[sid] == Closed
  {
  }
}

=== FILE: text.dfy ===
/**
 The few java.lang.String operations the chat protocol relies on, over `string`
 (a sequence of Dafny `char`s, which are Unicode scalar values, where Java
 counts UTF-16 code units): startsWith, trim, replace of one character by
 nothing, split on a one-character separator, and the comma-space join that
 AbstractCollection.toString performs. Every prefix and separator the protocol
 uses is ASCII, so the two ways of counting agree up to the first character
 outside the Basic Multilingual Plane; a line's payload offsets (6, 8, 14)
 agree whenever the character just before that offset (index 5, 7 or 13, the
 one right after the prefix) lies in that plane, as it always does in lines
 the server formats.
 */
module Text {

  /** Java's `s.startsWith(prefix)`. */
  predicate StartsWith(s: string, prefix: string) {
    |prefix| <= |s| && s[..|prefix|] == prefix
  }

  /* ---------------------------------------------------------------- trim */

  /** The characters String.trim removes: everything up to and including the space. */
  predicate IsTrimmable(c: char) {
    c <= ' '
  }

  /** Nothing for trim to remove at either end. */
  predicate Trimmed(s: string) {
    |s| == 0 || (!IsTrimmable(s[0]) && !IsTrimmable(s[|s| - 1]))
  }

  predicate AllTrimmable(s: string) {
    forall i | 0 <= i < |s| :: IsTrimmable(s[i])
  }

  function TrimStart(s: string): (r: string)
    ensures |r| <= |s| && r == s[|s| - |r|..]
    ensures |r| == 0 || !IsTrimmable(r[0])
    ensures AllTrimmable(s[..|s| - |r|])
  {
    if |s| > 0 && IsTrimmable(s[0]) then TrimStart(s[1..]) else s
  }

  function TrimEnd(s: string): (r: string)
    ensures |r| <= |s| && r == s[..|r|]
    ensures |r| == 0 || !IsTrimmable(r[|r| - 1])
    ensures AllTrimmable(s[|r|..])
  {
    if |s| > 0 && IsTrimmable(s[|s| - 1]) then TrimEnd(s[..|s| - 1]) else s
  }

  /** Java's `s.trim()`: the longest middle part of `s` with nothing trimmable at its ends. */
  function Trim(s: string): (r: string)
    ensures Trimmed(r)
    ensures |r| <= |s|
    ensures Trimmed(s) ==> r == s
  {
    TrimEnd(TrimStart(s))
  }

  lemma {:induction false} TrimStartSkips(pre: string, y: string)
    requires AllTrimmable(pre)
    ensures TrimStart(pre + y) == TrimStart(y)
  {
    if |pre| > 0 {
      assert (pre + y)[0] == pre[0];
      assert (pre + y)[1..] == pre[1..] + y;
      assert AllTrimmable(pre[1..]) by {
        forall i | 0 <= i < |pre| - 1 ensures IsTrimmable(pre[1..][i]) {
          assert pre[1..][i] == pre[i + 1];
        }
      }
      TrimStartSkips(pre[1..], y);
    } else {
      assert pre + y == y;
    }
  }

  lemma {:induction false} TrimEndSkips(y: string, post: string)
    requires AllTrimmable(post)
    ensures TrimEnd(y + post) == TrimEnd(y)
  {
    if |post| > 0 {
      var n := |post| - 1;
      assert (y + post)[|y + post| - 1] == post[n];
      assert (y + post)[..|y + post| - 1] == y + post[..n];
      assert AllTrimmable(post[..n]) by {
        forall i | 0 <= i < n ensures IsTrimmable(post[..n][i]) {
          assert post[..n][i] == post[i];
        }
      }
      TrimEndSkips(y, post[..n]);
    } else {
      assert y + post == y;
    }
  }

  /** Trim removes exactly the padding around an already trimmed string. */
  lemma TrimPadded(pre: string, x: string, post: string)
    requires AllTrimmable(pre) && AllTrimmable(post) && Trimmed(x)
    ensures Trim(pre + x + post) == x
  {
    assert pre + x + post == pre + (x + post);
    TrimStartSkips(pre, x + post);
    if |x| == 0 {
      assert x + post == post + "";
      TrimStartSkips(post, "");
      assert TrimStart(x + post) == "";
      assert Trim(pre + x + post) == TrimEnd("");
    } else {
      assert (x + post)[0] == x[0];
      assert TrimStart(x + post) == x + post;
      TrimEndSkips(x, post);
      assert TrimEnd(x) == x;
    }
  }

  /* ------------------------------------------------------- replace(c, "") */

  /** Java's `s.replace(String.valueOf(c), "")`: every occurrence of `c` deleted. */
  function Remove(s: string, c: char): (r: string)
    ensures c !in r
    ensures forall d | d != c :: d in r <==> d in s
    ensures c !in s ==> r == s
    ensures |r| <= |s|
  {
    if |s| == 0 then ""
    else (if s[0] == c then "" else [s[0]]) + Remove(s[1..], c)
  }

  lemma {:induction false} RemoveConcat(a: string, b: string, c: char)
    ensures Remove(a + b, c) == Remove(a, c) + Remove(b, c)
  {
    if |a| > 0 {
      assert (a + b)[1..] == a[1..] + b;
      RemoveConcat(a[1..], b, c);
    } else {
      assert a + b == b;
    }
  }

  /* ---------------------------------------------------------------- join */

  /** The elements of `xs` with `sep` between consecutive ones. */
  function Join(xs: seq<string>, sep: string): string {
    if |xs| == 0 then ""
    else if |xs| == 1 then xs[0]
    else xs[0] + sep + Join(xs[1..], sep)
  }

  predicate NoneContain(xs: seq<string>, c: char) {
    forall i | 0 <= i < |xs| :: c !in xs[i]
  }

  /** A character absent from every element and from the separator is absent from the join. */
  lemma {:induction false} JoinAvoids(xs: seq<string>, sep: string, c: char)
    requires NoneContain(xs, c) && c !in sep
    ensures c !in Join(xs, sep)
  {
    if |xs| > 1 {
      JoinAvoids(xs[1..], sep, c);
    }
  }

  /* --------------------------------------------------------------- split */

  /**
   Cutting `s` at every `c`: one more piece than there are occurrences of `c`,
   leading, inner and trailing empty pieces all kept.
   */
  function SplitOn(s: string, c: char): (r: seq<string>)
    ensures |r| >= 1
    ensures NoneContain(r, c)
    ensures c !in s ==> r == [s]
  {
    if |s| == 0 then [""]
    else
      var rest := SplitOn(s[1..], c);
      if s[0] == c then [""] + rest
      else
        assert s == [s[0]] + s[1..];
        [[s[0]] + rest[0]] + rest[1..]
  }

  lemma SplitOnCons(d: char, b: string, c: char)
    requires d != c
    ensures SplitOn([d] + b, c) == [[d] + SplitOn(b, c)[0]] + SplitOn(b, c)[1..]
  {
    assert ([d] + b)[1..] == b;
  }

  /** A separator after a separator-free prefix cuts off exactly that prefix. */
  lemma {:induction false} SplitOnAfter(a: string, b: string, c: char)
    requires c !in a
    ensures SplitOn(a + [c] + b, c) == [a] + SplitOn(b, c)
  {
    if |a| == 0 {
      assert a + [c] + b == [c] + b;
      assert ([c] + b)[1..] == b;
    } else {
      assert a + [c] + b == [a[0]] + (a[1..] + [c] + b);
      SplitOnAfter(a[1..], b, c);
      SplitOnCons(a[0], a[1..] + [c] + b, c);
      assert [a[0]] + a[1..] == a;
    }
  }

  /** Splitting undoes joining with the same one-character separator. */
  lemma {:induction false} SplitJoin(xs: seq<string>, c: char)
    requires |xs| >= 1 && NoneContain(xs, c)
    ensures SplitOn(Join(xs, [c]), c) == xs
  {
    if |xs| > 1 {
      SplitJoin(xs[1..], c);
      SplitOnAfter(xs[0], Join(xs[1..], [c]), c);
      assert [xs[0]] + xs[1..] == xs;
    }
  }

  /** Joining undoes splitting. */
  lemma {:induction false} JoinSplit(s: string, c: char)
    ensures Join(SplitOn(s, c), [c]) == s
  {
    if |s| > 0 {
      var rest := SplitOn(s[1..], c);
      JoinSplit(s[1..], c);
      if s[0] == c {
        assert [""] + rest == SplitOn(s, c);
        assert ([""] + rest)[1..] == rest;
        assert s == [c] + s[1..];
      } else {
        var r := SplitOn(s, c);
        assert r == [[s[0]] + rest[0]] + rest[1..];
        if |rest| == 1 {
          assert s == [s[0]] + s[1..];
        } else {
          assert r[1..] == rest[1..];
          assert Join(rest, [c]) == rest[0] + [c] + Join(rest[1..], [c]);
          assert s == [s[0]] + s[1..];
        }
      }
    }
  }

  /** Drops empty strings from the end, as String.split with no limit does. */
  function DropTrailingEmpty(xs: seq<string>): (r: seq<string>)
    ensures |r| <= |xs| && r == xs[..|r|]
    ensures |r| == 0 || r[|r| - 1] != ""
    ensures forall i | |r| <= i < |xs| :: xs[i] == ""
  {
    if |xs| > 0 && xs[|xs| - 1] == "" then DropTrailingEmpty(xs[..|xs| - 1]) else xs
  }

  /**
   Java's `s.split(String.valueOf(c))`: when `c` does not occur the result is
   `[s]` (even for the empty string); otherwise every piece between
   separators, minus the empty pieces at the end.
   */
  function JavaSplit(s: string, c: char): (r: seq<string>)
    ensures NoneContain(r, c)
    ensures c !in s ==> r == [s]
  {
    if c !in s then [s] else DropTrailingEmpty(SplitOn(s, c))
  }

  /**
   With a separator present, the pieces Java keeps are those of `SplitOn` up
   to the last non-empty one; every piece dropped after it is empty.
   */
  lemma JavaSplitPieces(s: string, c: char)
    requires c in s
    ensures
      var r := JavaSplit(s, c);
      var pieces := SplitOn(s, c);
      && |r| <= |pieces| && r == pieces[..|r|]
      && (|r| == 0 || r[|r| - 1] != "")
      && (forall i | |r| <= i < |pieces| :: pieces[i] == "")
  {
  }

  /** `" " + x` for every element after the first: the pieces a comma-space join splits back into. */
  function SpacedTail(xs: seq<string>): (r: seq<string>)
    requires |xs| >= 1
    ensures |r| == |xs| && r[0] == xs[0]
    ensures forall i | 1 <= i < |xs| :: r[i] == " " + xs[i]
  {
    [xs[0]] + seq(|xs| - 1, i requires 0 <= i < |xs| - 1 => " " + xs[i + 1])
  }

  /** Splitting a comma-space join on the comma leaves the space in front of every later element. */
  lemma {:induction false} SplitCommaSpaceJoin(xs: seq<string>)
    requires |xs| >= 1 && NoneContain(xs, ',')
    ensures SplitOn(Join(xs, ", "), ',') == SpacedTail(xs)
  {
    if |xs| == 1 {
    } else {
      var tail := Join(xs[1..], ", ");
      SplitCommaSpaceJoin(xs[1..]);
      assert Join(xs, ", ") == xs[0] + [','] + ([' '] + tail);
      SplitOnAfter(xs[0], [' '] + tail, ',');
      SplitOnCons(' ', tail, ',');
      var s := SplitOn(tail, ',');
      assert s == SpacedTail(xs[1..]);
      var lhs := [xs[0]] + ([[' '] + s[0]] + s[1..]);
      assert SplitOn(Join(xs, ", "), ',') == lhs;
      assert |lhs| == |xs|;
      forall i | 0 <= i < |xs|
        ensures lhs[i] == SpacedTail(xs)[i]
      {
        if i >= 2 {
          assert lhs[i] == s[i - 1];
        }
      }
    }
  }

  lemma {:induction false} CommaInJoin(xs: seq<string>)
    requires |xs| >= 2
    ensures ',' in Join(xs, ", ")
  {
    var j := Join(xs, ", ");
    var tail := Join(xs[1..], ", ");
    assert j == xs[0] + ", " + tail;
    assert j[|xs[0]|] == (xs[0] + ", " + tail)[|xs[0]|] == ',';
  }

  lemma DropTrailingEmptyKeeps(xs: seq<string>)
    requires |xs| >= 1 && xs[|xs| - 1] != ""
    ensures DropTrailingEmpty(xs) == xs
  {
  }

  /** Java's split on the comma of a join of two or more comma-free elements keeps every piece. */
  lemma JavaSplitCommaSpaceJoin(xs: seq<string>)
    requires |xs| >= 2 && NoneContain(xs, ',')
    ensures JavaSplit(Join(xs, ", "), ',') == SpacedTail(xs)
  {
    var j := Join(xs, ", ");
    CommaInJoin(xs);
    SplitCommaSpaceJoin(xs);
    var spaced := SpacedTail(xs);
    var last := |xs| - 1;
    assert spaced[last] == " " + xs[last];
    assert |spaced[last]| > 0;
    DropTrailingEmptyKeeps(spaced);
    assert JavaSplit(j, ',') == DropTrailingEmpty(SplitOn(j, ','));
  }
}

=== FILE: wrappers.dfy ===
/** The optional value used throughout the model for a Java reference that may be null. */
module Wrappers {

  /** `None` stands for Java's `null`. */
  datatype Option<+T> = None | Some(value: T)
}
